=== FILE: README.md ===
# Taskbar badge pipeline of WhatsappGPT, in Dafny

WhatsappGPT is a Tauri shell around a web page. Its only native logic is the
taskbar badge. A script injected into the page reads an unread count from the
page title, for example `(3) WhatsApp`. It sends that count to the `set_badge`
command whenever it changes. On Windows, `set_badge` calls
`set_taskbar_badge`, which does four things:

- it initialises COM and creates the shell's `ITaskbarList3` object;
- it clears the window's taskbar progress indicator;
- it clears the overlay icon (count 0) or sets it to a numeric glyph
  (`icons/badges/1.ico` … `9.ico`, or `9+.ico` above 9);
- it uninitialises COM again.

The glyph file is found by `load_icon_any`. It tries an ordered candidate
list against the working directory, and then against the executable's
directory.

This project models that pipeline:

- `common.dfy`: `Option`, `Result`, `uint32` (Rust's `u32`, the width of the count) and the decimal digits.
- `icon_loader.dfy` (module `IconLoader`): `load_icon_any`. The filesystem is
  abstract. It is a working directory, an optional executable directory, and
  two sets of absolute paths. One set holds the paths that exist, the other
  the paths that `LoadImageW` decodes. A functional definition and a
  loop-based method are proved to agree.
- `badge_glyph.dfy` (module `BadgeGlyph`): mapping a count to a glyph, to its
  relative path, and to the two-element candidate list. A parser of glyph
  paths is the inverse of the path writer.
- `taskbar.dfy` (module `Taskbar`): `set_taskbar_badge` as a pure function.
  It returns the trace of OS calls it makes and the resulting overlay state
  (`NoBadge | Numeric(1..9) | Overflow`). The outcome of each fallible OS call
  is a flag in a `Shell` record.
- `badge_command.dfy` (module `BadgeCommand`): the `set_badge` command. Its
  only error is a missing window handle.
- `title_count.dfy` (module `TitleCount`): `countFromTitle`, the leftmost
  match of `\((\d+)\)` and its decimal value.
- `badge_push.dfy` (module `BadgePush`): `push` and its `last` variable, which
  together deduplicate the commands.
- `badge_pipeline.dfy` (module `BadgePipeline`): counts applied one after
  another to the overlay. Under unchanging OS outcomes, deduplication does not
  change the final overlay, and the pushes end exactly where applying the
  deduplicated counts does. With an outcome per call, a failed update is never
  retried while the title keeps its count.

## Model

| member | source | states |
|---|---|---|
| IconLoader.ScanPass | src-tauri/src/main.rs:324-332 | one pass returns nothing iff no candidate exists and loads under the base directory, and otherwise returns the first such candidate in list order |
| IconLoader.LoadIconAny | src-tauri/src/main.rs:323-347 | the result is None iff every candidate fails under the working directory and, when the executable's directory is known, under it too; a working-directory hit wins, in list order; only when there is none does the first executable-directory hit win; a returned icon always exists and loads |
| IconLoader.LoadIconAnyLoop | src-tauri/src/main.rs:323-347 | the two early-returning loops of the source compute exactly the first-match loader |
| BadgeGlyph.BadgeCount | src-tauri/src/main.rs:362 | the capped count is 0 exactly for count 0, equals the count when the count is at most 9, and is 9 for every count above 9 |
| BadgeGlyph.GlyphFor | src-tauri/src/main.rs:362-370 | count 0 selects no glyph (clear), 1..9 select the numeral of that digit, every count above 9 selects the 9+ glyph |
| BadgeGlyph.GlyphPathRoundTrip | src-tauri/src/main.rs:366-370 | every glyph path `icons/badges/{name}.ico` parses back to its glyph |
| BadgeGlyph.ParseGlyphPathSound | src-tauri/src/main.rs:366-370 | every path that parses as a glyph path is exactly that glyph's path |
| BadgeGlyph.GlyphPathInjective | src-tauri/src/main.rs:366-370 | distinct glyphs are stored in distinct files |
| BadgeGlyph.CandidatesForCount | src-tauri/src/main.rs:366-372 | for 1..9 the candidate list is exactly `["icons/badges/{n}.ico", "resources/icons/badges/{n}.ico"]`, above 9 exactly `["icons/badges/9+.ico", "resources/icons/badges/9+.ico"]`, in that order |
| BadgeGlyph.OverflowGlyphsAgree | src-tauri/src/main.rs:366-367 | any two counts above 9 select the same 9+ glyph |
| Taskbar.UpdateOverlay | src-tauri/src/main.rs:362-379 | with the interface in hand, count 0 issues exactly one null-icon SetOverlayIcon and no load; a non-zero count first hands the loader exactly its glyph's candidate list, then issues SetOverlayIcon if and only if the loader returns an icon, with that icon; the overlay stays or moves to the target |
| Taskbar.SetTaskbarBadge | src-tauri/src/main.rs:351-385 | CoInitialize comes first, once; a failed CoInitialize is the only call; a failed CoCreateInstance is followed only by CoUninitialize; CoUninitialize runs iff CoInitialize succeeded, once, as the last call; without the interface no progress or overlay call is made; SetProgressState(NOPROGRESS) on the window precedes every overlay call; count 0 never loads an icon; only loaded icons reach the shell; the overlay stays or moves to the state machine's target |
| Taskbar.FoundGlyphIsApplied | src-tauri/src/main.rs:364-375 | with the interface and a non-zero count, the loader is called with exactly `[badge_path, "resources/" + badge_path]`, no null icon is sent, and an icon the loader returns is the one handed to SetOverlayIcon |
| Taskbar.ShownIsTarget | src-tauri/src/main.rs:361-370 | the glyph a non-zero count selects shows the state machine's target for that count |
| Taskbar.OverlayChangesExactlyWhen | src-tauri/src/main.rs:353-378 | the overlay becomes the target iff COM init, interface creation and the overlay call succeed and (for a non-zero count) the loader finds the glyph; otherwise it is unchanged |
| Taskbar.Idempotent | src-tauri/src/main.rs:351-385 | applying the same count twice leaves the overlay as applying it once |
| Taskbar.ZeroClears | src-tauri/src/main.rs:353-384 | with COM initialised and the interface created, count 0 gives exactly the trace init, create, clear progress, one null SetOverlayIcon, uninit, and leaves NoBadge from any prior state when the overlay call takes effect (the prior state otherwise) |
| Taskbar.MissingGlyphKeepsOverlay | src-tauri/src/main.rs:372-375 | a glyph missing under every candidate and directory leaves the overlay unchanged and issues no SetOverlayIcon |
| Taskbar.OverflowCountsAgree | src-tauri/src/main.rs:362-370 | two counts above 9 (10 and 9999, say) produce the same trace and overlay |
| Taskbar.PackagedFallback | src-tauri/src/main.rs:372-375 | with every OS call succeeding, a glyph present only as the `resources/` copy in the working directory is applied from that copy |
| Taskbar.ExeDirFallback | src-tauri/src/main.rs:333-345 | with every OS call succeeding, a glyph found under neither working-directory path is applied from the first candidate found under the executable's directory, the primary path or the `resources/` copy, as the fifth call of a six-call trace, and the overlay reaches the target |
| BadgeCommand.SetBadge | src-tauri/src/main.rs:26-30 | the command fails, with "hwnd not available", iff the window handle is unavailable; otherwise it reports success after running the badge update on that handle: CoInitialize first, CoCreateInstance of the taskbar list and CoUninitialize iff initialisation succeeded, the progress reset iff the interface was created, every interface call on that handle, and the overlay moved to the count's target iff every OS call succeeds and the glyph is found, else left as it was |
| TitleCount.DecimalRoundTrip | src-tauri/src/main.rs:285 | `parseInt` of a number's decimal numeral gives the number back |
| TitleCount.MatchEndCorrect | src-tauri/src/main.rs:284 | the greedy digit scan at a position finds a match there iff the regular expression `\((\d+)\)` matches starting there |
| TitleCount.ScanFromSpec | src-tauri/src/main.rs:281-287 | the scan from a position with no earlier match returns the value of the leftmost match, and 0 when there is none |
| TitleCount.CountFromTitleSpec | src-tauri/src/main.rs:281-287 | `countFromTitle` is 0 for a title with no `(digits)` and the decimal value of the leftmost `(digits)` otherwise |
| TitleCount.TitleRoundTrip | src-tauri/src/main.rs:281-287 | a title `prefix(n)suffix` with no `(` in the prefix yields n |
| BadgePush.Push | src-tauri/src/main.rs:289-296 | a push sends iff the title's count differs from `last`, sends that count, sets `last` to it, and always sends from the initial state |
| BadgePush.DestutterProperties | src-tauri/src/main.rs:289-296 | collapsing repeated counts keeps the first and last count, takes only counts that occur, and leaves no two adjacent equal |
| BadgePush.PushAll | src-tauri/src/main.rs:289-296 | pushing on successive titles sends exactly the title counts with adjacent repeats collapsed, never the same count twice in a row, and leaves `last` at the latest count |
| BadgePipeline.FoldDestutter | src-tauri/src/main.rs:290-295 | for any update step that is idempotent on a repeated count, applying the counts with adjacent repeats collapsed ends in the same overlay as applying them all |
| BadgePipeline.DedupInvisible | src-tauri/src/main.rs:290-295 | on a machine whose window handle, OS call outcomes and files stay the same across the calls, applying only the deduplicated counts leaves the window's overlay where applying every count would |
| BadgePipeline.ShowsLastCount | src-tauri/src/main.rs:351-385 | with every OS call succeeding and every glyph found, successive updates leave the target state of the last count, whatever the prior state |
| BadgePipeline.TitlesToOverlay | src-tauri/src/main.rs:281-296 | with every OS call succeeding, every glyph found and every count within `u32`, the commands `push` sends for successive titles leave the overlay at the target of the latest title's count |
| BadgePipeline.PushOnce | src-tauri/src/main.rs:289-296 | one push leaves `last` at the title's count; the overlay changes only when that count differs from `last` and the window handle is available, and then only to the count's target |
| BadgePipeline.PushRunIsApplyCounts | src-tauri/src/main.rs:289-296 | under one fixed outcome for every call, with the handle available, running the pushes from the script's start ends exactly where `set_taskbar_badge` applied to the deduplicated counts ends, with `last` at the latest title's count |
| BadgePipeline.UnchangedCountSendsNothing | src-tauri/src/main.rs:289-296 | pushes whose title count equals `last` send nothing, so neither `last` nor the overlay changes, whatever those calls' outcomes would have been |
| BadgePipeline.FailedUpdateNeverRetried | src-tauri/src/main.rs:289-296 | if the first `set_badge` for a new count leaves the overlay unchanged (no Tauri `invoke` in the page, no handle, COM or interface unavailable, overlay call without effect, glyph missing), later pushes of the same count never retry it, even under outcomes that would succeed |
| BadgePipeline.DedupSkipsRetry | src-tauri/src/main.rs:289-296 | concretely: title "(3)" twice, first call without the taskbar interface, second healthy: the overlay stays NoBadge, though the second outcome alone would show "3" |
| BadgePipeline.ThreeUnreadCount | src-tauri/src/main.rs:281-287 | the title "(3)" yields the count 3 |
| BadgePipeline.GlyphThreeFound | src-tauri/src/main.rs:364-375 | with a healthy shell and `icons/badges/3.ico` loadable in the working directory, count 3 shows Numeric(3) |

## Left out

- Win32 and COM themselves: LoadImageW decoding, HICON and HWND validity, and the wide-string encoding of paths. These are foreign calls. They appear as the sets `existing` and `loadable`, the flags of `Shell`, and an opaque `Hwnd`.
- `Join` writes `dir + "/" + rel`. Windows path normalisation and the case where the executable's directory is the working directory are not modelled. The model treats the two passes as independent probes.
- The pipeline takes the `set_badge` calls to run one at a time, in the order `push` sent them. The script never awaits `invoke`'s promise (src-tauri/src/main.rs:294), so the order rests on Tauri running a synchronous command on the main thread, one after another. Reordered or overlapping calls are not modelled.
- The script runs only in the `main` window: setup fetches that window (src-tauri/src/main.rs:41) and evaluates the script in it alone (src-tauri/src/main.rs:313). `PushRun` therefore fixes one handle for the whole run; only whether `hwnd()` yields it varies per call.
- When the page has no Tauri `invoke`, the script's wrapper rejects with "no tauri invoke" (src-tauri/src/main.rs:71-75) and `set_badge` never runs, though `last` has already moved on (src-tauri/src/main.rs:293). The model folds this path into a call outcome with `hwndOk` false, which leaves `last` and the overlay exactly as it does.
- BadgePipeline.DedupInvisible: assumes the same window handle, OS call outcomes and files for every call. With an outcome per call, deduplication does change the result: a failed update is not retried while the count is unchanged (`FailedUpdateNeverRetried`, `DedupSkipsRetry`).
- The result of SetProgressState is ignored by the source, so it has no flag and no effect on the overlay.
- Whether SetOverlayIcon takes effect is the `overlayOk` flag. The source ignores its result.
- The title-bar icon `SendMessageW` call and the Tauri builder, setup and run plumbing (src-tauri/src/main.rs:38-320) are framework glue.
- The injected CSS, DOM construction, panel toggle and localStorage persistence are UI. So is the drag-resize width clamp, which works on float pixel values.
- The MutationObserver and `setInterval` cadence of `push` is timing- and event-driven. `PushAll` takes the titles the script happens to observe, in order.
- JavaScript `parseInt` loses precision beyond 2^53. `DecimalValue` is exact.
- A count of 2^32 or more fails deserialisation at the command boundary, and `.catch` swallows that failure. `BadgePipeline` requires every count to fit `u32` instead.
- The `try/catch` in `countFromTitle` guards only against host exceptions, which the model has none of. `document.title || ""` is the title string itself.
- The non-Windows `set_badge` stub returns `Ok` and does nothing.
- `src/icon-manager.js` wraps commands that the application never registers. `src/main.js` is demo UI. Neither is part of this model.
- `LR_DEFAULTSIZE` makes LoadImageW load at the system default icon size, not the file's native size. Image sizes are not modelled.
- Negative counts cannot occur: the count is a `u32` in the source and `uint32` here.

=== FILE: badge_command.dfy ===
/** The `set_badge` command the hosted page invokes: fetch the window's native
    handle, then update the badge best-effort. */
module BadgeCommand {
  import opened Common
  import opened IconLoader
  import opened Taskbar

  const HwndUnavailable := "hwnd not available"

  /** `set_badge(window, count)`; `hwnd` is what `window.hwnd()` yields. The
      only error that reaches the page is a missing window handle. */
  function SetBadge(hwnd: Option<Hwnd>, count: uint32, shell: Shell, fs: FileSystem, prior: Overlay): (r: Result<Effect>)
    ensures r.Err? <==> hwnd.None?
    ensures r.Err? ==> r.error == HwndUnavailable
    ensures r.Ok? ==> |r.value.trace| >= 1 && r.value.trace[0] == CoInitialize
    ensures r.Ok? ==> r.value.overlay == prior || r.value.overlay == Target(count)
    ensures r.Ok? ==> forall i :: 0 <= i < |r.value.trace| && InterfaceCall(r.value.trace[i]) ==>
                        r.value.trace[i].hwnd == hwnd.value
    // with a handle, the badge update runs: COM is set up and torn down, the
    // interface is asked for, and the overlay moves to the target exactly
    // when every OS call succeeds and the glyph is found
    ensures hwnd.Some? ==> r.Ok?
    ensures r.Ok? ==> (CoUninitialize in r.value.trace <==> shell.initOk)
    ensures r.Ok? ==> (CoCreateInstance(CLSID_TASKBAR_LIST) in r.value.trace <==> shell.initOk)
    ensures r.Ok? ==> (SetProgressState(hwnd.value, NoProgress) in r.value.trace <==> shell.initOk && shell.createOk)
    ensures r.Ok? ==> r.value.overlay ==
                        (if shell.initOk && shell.createOk && shell.overlayOk && GlyphFound(fs, count)
                         then Target(count) else prior)
  {
    match hwnd
    case None => Err(HwndUnavailable)
    case Some(h) =>
      OverlayChangesExactlyWhen(shell, fs, h, prior, count);
      Ok(SetTaskbarBadge(shell, fs, h, prior, count))
  }
}

=== FILE: badge_glyph.dfy ===
/** Glyph selection: which badge icon file a count names, and the ordered
    candidate list handed to the loader. */
module BadgeGlyph {
  import opened Common

  /** The glyph files shipped with the application: one per digit 1..9 and
      one for "9+". */
  datatype Glyph = Numeral(digit: int) | NinePlus

  predicate ValidGlyph(g: Glyph) {
    g.Numeral? ==> 1 <= g.digit <= 9
  }

  /** The `badge_count` of the source: 0 stays 0, anything else is capped at 9. */
  function BadgeCount(count: uint32): (b: int)
    ensures 0 <= b <= 9
    ensures b == 0 <==> count == 0
    ensures count <= 9 ==> b == count
    ensures count > 9 ==> b == 9
  {
    if count == 0 then 0 else Min(count, 9)
  }

  /** The glyph a count selects, or None for "clear the overlay". */
  function GlyphFor(count: uint32): (g: Option<Glyph>)
    ensures g.None? <==> count == 0
    ensures 1 <= count <= 9 ==> g == Some(Numeral(count))
    ensures count > 9 ==> g == Some(NinePlus)
    ensures g.Some? ==> ValidGlyph(g.value)
  {
    var badge := BadgeCount(count);
    if badge > 0 then Some(if count > 9 then NinePlus else Numeral(badge)) else None
  }

  const BadgeDir := "icons/badges/"
  const ResourcesPrefix := "resources/"
  const IconExt := ".ico"
  const OverflowName := "9+"

  /** The file stem of a glyph. */
  function GlyphName(g: Glyph): string
    requires ValidGlyph(g)
  {
    match g
    case Numeral(d) => [DigitChar(d)]
    case NinePlus => OverflowName
  }

  /** The primary relative path of a glyph file. */
  function GlyphPath(g: Glyph): string
    requires ValidGlyph(g)
  {
    BadgeDir + GlyphName(g) + IconExt
  }

  /** The candidate list passed to the loader: primary path first, the
      packaged-resource copy second. */
  function Candidates(g: Glyph): seq<string>
    requires ValidGlyph(g)
  {
    [GlyphPath(g), ResourcesPrefix + GlyphPath(g)]
  }

  /** Recover the glyph from a primary glyph path; the inverse of GlyphPath. */
  function ParseGlyphPath(path: string): (r: Option<Glyph>)
    ensures r.Some? ==> ValidGlyph(r.value)
  {
    if |path| < |BadgeDir| + |IconExt| then None
    else if path[..|BadgeDir|] != BadgeDir || path[|path| - |IconExt|..] != IconExt then None
    else
      var name := path[|BadgeDir|..|path| - |IconExt|];
      if name == OverflowName then Some(NinePlus)
      else if |name| == 1 && IsDigit(name[0]) && name[0] != '0' then Some(Numeral(DigitValue(name[0])))
      else None
  }

  /** Every glyph path parses back to its glyph. */
  lemma GlyphPathRoundTrip(g: Glyph)
    requires ValidGlyph(g)
    ensures ParseGlyphPath(GlyphPath(g)) == Some(g)
  {
    var path := GlyphPath(g);
    assert path[..|BadgeDir|] == BadgeDir;
    assert path[|path| - |IconExt|..] == IconExt;
    assert path[|BadgeDir|..|path| - |IconExt|] == GlyphName(g);
  }

  /** Every path that parses is the path of the glyph it parses to. */
  lemma ParseGlyphPathSound(path: string, g: Glyph)
    requires ParseGlyphPath(path) == Some(g)
    ensures GlyphPath(g) == path
  {
    var name := path[|BadgeDir|..|path| - |IconExt|];
    assert path == path[..|BadgeDir|] + name + path[|path| - |IconExt|..];
    if g.Numeral? {
      assert GlyphName(g) == [name[0]] == name;
    }
  }

  /** Distinct glyphs are stored in distinct files. */
  lemma GlyphPathInjective(g1: Glyph, g2: Glyph)
    requires ValidGlyph(g1) && ValidGlyph(g2)
    requires GlyphPath(g1) == GlyphPath(g2)
    ensures g1 == g2
  {
    GlyphPathRoundTrip(g1);
    GlyphPathRoundTrip(g2);
  }

  /** The candidate files a non-zero count asks for, spelled out. */
  lemma CandidatesForCount(count: uint32)
    requires count != 0
    ensures var cands := Candidates(GlyphFor(count).value);
      && (count <= 9 ==> cands == ["icons/badges/" + [DigitChar(count)] + ".ico",
                                  "resources/icons/badges/" + [DigitChar(count)] + ".ico"])
      && (count > 9 ==> cands == ["icons/badges/9+.ico", "resources/icons/badges/9+.ico"])
  {
    var g := GlyphFor(count).value;
    assert ResourcesPrefix + GlyphPath(g) == "resources/icons/badges/" + GlyphName(g) + ".ico";
    if count > 9 {
      assert GlyphPath(g) == "icons/badges/" + "9+" + ".ico" == "icons/badges/9+.ico";
      assert "resources/icons/badges/" + "9+" + ".ico" == "resources/icons/badges/9+.ico";
    }
  }

  /** Every count above 9 selects the same glyph. */
  lemma OverflowGlyphsAgree(a: uint32, b: uint32)
    requires a > 9 && b > 9
    ensures GlyphFor(a) == GlyphFor(b) == Some(NinePlus)
  {
  }
}

=== FILE: badge_pipeline.dfy ===
/** The page-to-taskbar pipeline: the counts `push` sends, applied one after
    another to the window's overlay. */
module BadgePipeline {
  import opened Common
  import opened IconLoader
  import opened Taskbar
  import opened TitleCount
  import opened BadgePush
  import opened BadgeCommand
  import opened BadgeGlyph

  /** Every count fits the command's `u32` parameter. */
  predicate FitsU32(cs: seq<nat>) {
    forall k :: 0 <= k < |cs| ==> cs[k] < 0x1_0000_0000
  }

  /** The overlay after `step` is applied to each count in turn. */
  function Fold(step: (Overlay, uint32) -> Overlay, prior: Overlay, cs: seq<nat>): Overlay
    requires FitsU32(cs)
    decreases |cs|
  {
    if cs == [] then prior else step(Fold(step, prior, cs[..|cs| - 1]), cs[|cs| - 1])
  }

  /** Repeating a count right away changes nothing. */
  ghost predicate IdempotentStep(step: (Overlay, uint32) -> Overlay) {
    forall o: Overlay, c: uint32 :: step(step(o, c), c) == step(o, c)
  }

  /** Applying one more count is one more step on the overlay so far. */
  lemma FoldSnoc(step: (Overlay, uint32) -> Overlay, prior: Overlay, cs: seq<nat>, c: uint32)
    requires FitsU32(cs)
    ensures FitsU32(cs + [c])
    ensures Fold(step, prior, cs + [c]) == step(Fold(step, prior, cs), c)
  {
    assert (cs + [c])[..|cs|] == cs;
  }

  /** Collapsing repeats keeps every count within `u32`. */
  lemma DestutterFits(cs: seq<nat>)
    requires FitsU32(cs)
    ensures FitsU32(Destutter(cs))
  {
    DestutterProperties(cs);
  }

  /** With an idempotent step, collapsing adjacent repeats does not change
      the final overlay. */
  lemma {:induction false} FoldDestutter(step: (Overlay, uint32) -> Overlay, prior: Overlay, cs: seq<nat>)
    requires IdempotentStep(step)
    requires FitsU32(cs)
    ensures FitsU32(Destutter(cs))
    ensures Fold(step, prior, Destutter(cs)) == Fold(step, prior, cs)
    decreases |cs|
  {
    DestutterFits(cs);
    if |cs| > 1 {
      var init := cs[..|cs| - 1];
      var c: uint32 := cs[|cs| - 1];
      assert FitsU32(init);
      FoldDestutter(step, prior, init);
      var d := Destutter(init);
      DestutterFits(init);
      if c == cs[|cs| - 2] {
        assert Destutter(cs) == d;
        var init2 := init[..|init| - 1];
        assert FitsU32(init2);
        assert Fold(step, prior, init) == step(Fold(step, prior, init2), c);
      } else {
        assert Destutter(cs) == d + [c];
        FoldSnoc(step, prior, d, c);
      }
    }
  }

  /** One `set_taskbar_badge` call, seen through the overlay it leaves, on a
      machine whose files and OS call outcomes do not change meanwhile. */
  function BadgeStep(shell: Shell, fs: FileSystem, hwnd: Hwnd): (Overlay, uint32) -> Overlay {
    (o: Overlay, c: uint32) => SetTaskbarBadge(shell, fs, hwnd, o, c).overlay
  }

  /** The overlay after `set_taskbar_badge` is called on each count in turn. */
  function ApplyCounts(shell: Shell, fs: FileSystem, hwnd: Hwnd, prior: Overlay, cs: seq<nat>): Overlay
    requires FitsU32(cs)
  {
    Fold(BadgeStep(shell, fs, hwnd), prior, cs)
  }

  /** Dropping repeated counts, as `push` does, does not change the overlay
      the window ends up with. */
  lemma DedupInvisible(shell: Shell, fs: FileSystem, hwnd: Hwnd, prior: Overlay, cs: seq<nat>)
    requires FitsU32(cs)
    ensures FitsU32(Destutter(cs))
    ensures ApplyCounts(shell, fs, hwnd, prior, Destutter(cs)) == ApplyCounts(shell, fs, hwnd, prior, cs)
  {
    var step := BadgeStep(shell, fs, hwnd);
    forall o: Overlay, c: uint32 ensures step(step(o, c), c) == step(o, c) {
      Idempotent(shell, fs, hwnd, o, c);
    }
    FoldDestutter(step, prior, cs);
  }

  /** When every OS call succeeds and every glyph is found, the overlay shows
      the state machine's target for the last count, whatever came before. */
  lemma ShowsLastCount(fs: FileSystem, hwnd: Hwnd, prior: Overlay, cs: seq<nat>)
    requires FitsU32(cs) && |cs| > 0
    requires forall k :: 0 <= k < |cs| ==> GlyphFound(fs, cs[k])
    ensures ApplyCounts(Shell(true, true, true), fs, hwnd, prior, cs) == Target(cs[|cs| - 1])
  {
    var c := cs[|cs| - 1];
    OverlayChangesExactlyWhen(Shell(true, true, true), fs, hwnd,
      ApplyCounts(Shell(true, true, true), fs, hwnd, prior, cs[..|cs| - 1]), c);
  }

  /** From page titles to the taskbar: the commands `push` sends leave the
      overlay where sending every title's count would, and with a healthy
      shell that is the target of the latest title's count. */
  lemma TitlesToOverlay(titles: seq<string>, fs: FileSystem, hwnd: Hwnd, prior: Overlay)
    requires |titles| > 0
    requires FitsU32(Counts(titles))
    requires forall k :: 0 <= k < |titles| ==> GlyphFound(fs, Counts(titles)[k])
    ensures FitsU32(Destutter(Counts(titles)))
    ensures ApplyCounts(Shell(true, true, true), fs, hwnd, prior, Destutter(Counts(titles)))
            == Target(CountFromTitle(titles[|titles| - 1]))
  {
    var cs := Counts(titles);
    DedupInvisible(Shell(true, true, true), fs, hwnd, prior, cs);
    ShowsLastCount(fs, hwnd, prior, cs);
  }

  /** How one `set_badge` invocation turns out: whether `hwnd()` yields the
      window's handle, the OS call outcomes, and the files on disk. */
  datatype CallOutcome = CallOutcome(hwndOk: bool, shell: Shell, fs: FileSystem)

  /** The push state and the overlay together. */
  datatype RunState = RunState(pusher: Pusher, overlay: Overlay)

  /** Dropping the first title keeps every count within `u32`. */
  lemma TailFits(titles: seq<string>)
    requires |titles| > 0 && FitsU32(Counts(titles))
    ensures FitsU32(Counts(titles[1..]))
  {
    forall k | 0 <= k < |titles| - 1 ensures Counts(titles[1..])[k] < 0x1_0000_0000 {
      assert Counts(titles[1..])[k] == Counts(titles)[k + 1];
    }
  }

  /** Dropping the last title keeps every count within `u32`. */
  lemma InitFits(titles: seq<string>, t: string)
    requires FitsU32(Counts(titles + [t]))
    ensures FitsU32(Counts(titles))
    ensures CountFromTitle(t) < 0x1_0000_0000
  {
    assert Counts(titles + [t])[|titles|] == CountFromTitle(t);
    forall k | 0 <= k < |titles| ensures Counts(titles)[k] < 0x1_0000_0000 {
      assert Counts(titles)[k] == Counts(titles + [t])[k];
    }
  }

  /** One `push()` on the window `hwnd`: a count that is sent is handed to
      `invoke`, and `set_badge` runs under that call's own outcome; whatever
      comes back is swallowed by the script's `.catch`, and `last` has
      already moved on. A page without Tauri's `invoke` rejects before the
      command runs; that leaves `last` and the overlay exactly as a missing
      window handle does, so it is the outcome with `hwndOk` false. The overlay changes only when a new count is sent and the
      handle is available, and then only to that count's target. */
  function PushOnce(hwnd: Hwnd, s: RunState, title: string, out: CallOutcome): (r: RunState)
    requires CountFromTitle(title) < 0x1_0000_0000
    ensures r.pusher.last == CountFromTitle(title)
    ensures r.overlay == s.overlay || r.overlay == Target(CountFromTitle(title))
    ensures r.overlay != s.overlay ==> CountFromTitle(title) != s.pusher.last && out.hwndOk
  {
    var step := Push(s.pusher, title);
    var next := match step.sent
      case None => s.overlay
      case Some(n) =>
        match SetBadge(if out.hwndOk then Some(hwnd) else None, n, out.shell, out.fs, s.overlay)
        case Ok(e) => e.overlay
        case Err(_) => s.overlay;
    RunState(step.next, next)
  }

  /** `push()` on each observed title in turn, one call after another on the
      app's single window `hwnd`, each sent count under its own outcome. */
  function PushRun(hwnd: Hwnd, s: RunState, titles: seq<string>, outs: seq<CallOutcome>): RunState
    requires |outs| == |titles| && FitsU32(Counts(titles))
    decreases |titles|
  {
    if titles == [] then s
    else
      assert Counts(titles)[0] == CountFromTitle(titles[0]);
      TailFits(titles);
      PushRun(hwnd, PushOnce(hwnd, s, titles[0], outs[0]), titles[1..], outs[1..])
  }

  /** One more title at the end is one more `push()` after the rest. */
  lemma {:induction false} PushRunSnoc(hwnd: Hwnd, s: RunState, titles: seq<string>, outs: seq<CallOutcome>,
                                       t: string, x: CallOutcome)
    requires |outs| == |titles| && FitsU32(Counts(titles + [t]))
    ensures FitsU32(Counts(titles)) && CountFromTitle(t) < 0x1_0000_0000
    ensures PushRun(hwnd, s, titles + [t], outs + [x]) == PushOnce(hwnd, PushRun(hwnd, s, titles, outs), t, x)
    decreases |titles|
  {
    InitFits(titles, t);
    if titles == [] {
      assert [t][1..] == [];
    } else {
      var s' := PushOnce(hwnd, s, titles[0], outs[0]);
      assert (titles + [t])[1..] == titles[1..] + [t];
      assert (outs + [x])[1..] == outs[1..] + [x];
      TailFits(titles + [t]);
      PushRunSnoc(hwnd, s', titles[1..], outs[1..], t, x);
    }
  }

  /** A push with the handle available is a `set_taskbar_badge` call on the
      count exactly when it differs from `last`. */
  lemma PushOnceHealthy(hwnd: Hwnd, shell: Shell, fs: FileSystem, s: RunState, t: string)
    requires CountFromTitle(t) < 0x1_0000_0000
    ensures var c: uint32 := CountFromTitle(t);
            PushOnce(hwnd, s, t, CallOutcome(true, shell, fs))
            == RunState(Pusher(c), if c != s.pusher.last then BadgeStep(shell, fs, hwnd)(s.overlay, c) else s.overlay)
  {
  }

  /** Collapsing runs in a sequence with one more element. */
  lemma DestutterSnoc(cs: seq<nat>, c: nat)
    ensures Destutter(cs + [c]) == if cs != [] && c == cs[|cs| - 1] then Destutter(cs) else Destutter(cs) + [c]
  {
    assert (cs + [c])[..|cs|] == cs;
  }

  /** The run state a healthy run from the script's start reaches after the
      counts `cs`. */
  function HealthyState(shell: Shell, fs: FileSystem, hwnd: Hwnd, o: Overlay, cs: seq<nat>): RunState
    requires FitsU32(cs)
  {
    DestutterFits(cs);
    RunState(if cs == [] then Initial else Pusher(cs[|cs| - 1]), ApplyCounts(shell, fs, hwnd, o, Destutter(cs)))
  }

  /** One healthy push extends the counts by one. */
  lemma HealthyStep(shell: Shell, fs: FileSystem, hwnd: Hwnd, o: Overlay, cs: seq<nat>, t: string)
    requires FitsU32(cs) && CountFromTitle(t) < 0x1_0000_0000
    ensures FitsU32(cs + [CountFromTitle(t)])
    ensures PushOnce(hwnd, HealthyState(shell, fs, hwnd, o, cs), t, CallOutcome(true, shell, fs))
            == HealthyState(shell, fs, hwnd, o, cs + [CountFromTitle(t)])
  {
    var c: uint32 := CountFromTitle(t);
    var r := HealthyState(shell, fs, hwnd, o, cs);
    PushOnceHealthy(hwnd, shell, fs, r, t);
    DestutterSnoc(cs, c);
    DestutterFits(cs);
    FoldSnoc(BadgeStep(shell, fs, hwnd), o, Destutter(cs), c);
  }

  /** Under one fixed outcome for every call (handle available, same shell,
      same files), running the page's pushes from the script's start is
      exactly applying `set_taskbar_badge` to the deduplicated counts, and
      `last` ends at the latest title's count. */
  lemma {:induction false} PushRunIsApplyCounts(hwnd: Hwnd, shell: Shell, fs: FileSystem, o: Overlay,
                                                titles: seq<string>, outs: seq<CallOutcome>)
    requires |outs| == |titles| && FitsU32(Counts(titles))
    requires forall k :: 0 <= k < |outs| ==> outs[k] == CallOutcome(true, shell, fs)
    ensures FitsU32(Destutter(Counts(titles)))
    ensures PushRun(hwnd, RunState(Initial, o), titles, outs)
            == RunState(if titles == [] then Initial else Pusher(CountFromTitle(titles[|titles| - 1])),
                        ApplyCounts(shell, fs, hwnd, o, Destutter(Counts(titles))))
    decreases |titles|
  {
    DestutterFits(Counts(titles));
    assert HealthyState(shell, fs, hwnd, o, []) == RunState(Initial, o);
    if titles != [] {
      var n := |titles| - 1;
      var init, t := titles[..n], titles[n];
      var oinit := outs[..n];
      assert titles == init + [t];
      assert outs == oinit + [CallOutcome(true, shell, fs)];
      PushRunSnoc(hwnd, RunState(Initial, o), init, oinit, t, CallOutcome(true, shell, fs));
      PushRunIsApplyCounts(hwnd, shell, fs, o, init, oinit);
      HealthyStep(shell, fs, hwnd, o, Counts(init), t);
      assert Counts(titles) == Counts(init) + [CountFromTitle(t)];
    }
  }

  /** Titles whose count equals `last` send nothing, so the overlay stays
      where it is whatever the later call outcomes would have been. */
  lemma {:induction false} UnchangedCountSendsNothing(hwnd: Hwnd, s: RunState, titles: seq<string>,
                                                      outs: seq<CallOutcome>)
    requires |outs| == |titles| && FitsU32(Counts(titles))
    requires forall k :: 0 <= k < |titles| ==> CountFromTitle(titles[k]) == s.pusher.last
    ensures PushRun(hwnd, s, titles, outs) == s
    decreases |titles|
  {
    if titles != [] {
      TailFits(titles);
      UnchangedCountSendsNothing(hwnd, s, titles[1..], outs[1..]);
    }
  }

  /** A failed update is never retried while the title keeps its count: if
      the first `set_badge` for a new count leaves the overlay unchanged
      (no Tauri `invoke` in the page, no window handle, COM or the interface unavailable, the overlay call
      without effect, or the glyph missing), later pushes of the same count
      send nothing, so the overlay stays put even when those later calls
      would have succeeded. */
  lemma FailedUpdateNeverRetried(hwnd: Hwnd, s: RunState, titles: seq<string>, outs: seq<CallOutcome>)
    requires |outs| == |titles| && FitsU32(Counts(titles)) && |titles| > 0
    requires forall k :: 0 <= k < |titles| ==> CountFromTitle(titles[k]) == CountFromTitle(titles[0])
    requires CountFromTitle(titles[0]) != s.pusher.last
    requires var c := CountFromTitle(titles[0]);
      || !outs[0].hwndOk
      || !(outs[0].shell.initOk && outs[0].shell.createOk && outs[0].shell.overlayOk && GlyphFound(outs[0].fs, c))
    ensures PushRun(hwnd, s, titles, outs).overlay == s.overlay
  {
    assert Counts(titles)[0] == CountFromTitle(titles[0]);
    var c: uint32 := CountFromTitle(titles[0]);
    TailFits(titles);
    UnchangedCountSendsNothing(hwnd, PushOnce(hwnd, s, titles[0], outs[0]), titles[1..], outs[1..]);
  }

  /** A title of the page with three unread chats. */
  const ThreeUnread := "(3)"

  /** A machine where the "3" glyph sits in the working directory. */
  const GlyphThreeOnDisk := FileSystem("C:", None, {"C:/icons/badges/3.ico"}, {"C:/icons/badges/3.ico"})

  lemma ThreeUnreadCount()
    ensures CountFromTitle(ThreeUnread) == 3
  {
    assert ToDecimal(3) == "3";
    TitleRoundTrip("", 3, "");
    assert "" + "(" + "3" + ")" + "" == ThreeUnread;
  }

  lemma GlyphThreeFound()
    ensures SetTaskbarBadge(Shell(true, true, true), GlyphThreeOnDisk, 1, NoBadge, 3).overlay == Numeric(3)
  {
    var fs := GlyphThreeOnDisk;
    var cands := Candidates(Numeral(3));
    assert DigitChar(3) == '3';
    assert cands[0] == "icons/badges/3.ico";
    assert Join(fs.cwd, cands[0]) == "C:/icons/badges/3.ico";
    assert FirstHitAt(fs, fs.cwd, cands, 0);
    OverlayChangesExactlyWhen(Shell(true, true, true), fs, 1, NoBadge, 3);
  }

  /** A concrete instance: the page shows "(3)" twice; the first `set_badge`
      cannot create the taskbar interface, the second push would have
      succeeded but is deduplicated, so no badge appears. Applying the
      second outcome to the count would have shown "3". */
  lemma DedupSkipsRetry()
    ensures var outs := [CallOutcome(true, Shell(true, false, true), GlyphThreeOnDisk),
                         CallOutcome(true, Shell(true, true, true), GlyphThreeOnDisk)];
            && FitsU32(Counts([ThreeUnread, ThreeUnread]))
            && PushRun(1, RunState(Initial, NoBadge), [ThreeUnread, ThreeUnread], outs).overlay == NoBadge
            && SetTaskbarBadge(Shell(true, true, true), GlyphThreeOnDisk, 1, NoBadge, 3).overlay == Numeric(3)
  {
    var outs := [CallOutcome(true, Shell(true, false, true), GlyphThreeOnDisk),
                 CallOutcome(true, Shell(true, true, true), GlyphThreeOnDisk)];
    ThreeUnreadCount();
    FailedUpdateNeverRetried(1, RunState(Initial, NoBadge), [ThreeUnread, ThreeUnread], outs);
    GlyphThreeFound();
  }
}

=== FILE: badge_push.dfy ===
/** `push` of the injected page script: read the count from the title and
    send `set_badge` only when it differs from the last count read. */
module BadgePush {
  import opened Common
  import opened TitleCount

  /** The script's `last` variable. */
  datatype Pusher = Pusher(last: int)

  /** `let last = -1`: no count can equal it, so the first push always sends. */
  const Initial := Pusher(-1)

  /** The new `last`, and the count sent to `set_badge` if any. */
  datatype PushStep = PushStep(next: Pusher, sent: Option<nat>)

  /** One `push()` on the current title. */
  function Push(p: Pusher, title: string): (s: PushStep)
    ensures s.sent.Some? <==> CountFromTitle(title) != p.last
    ensures s.sent.Some? ==> s.sent.value == CountFromTitle(title)
    ensures s.next.last == CountFromTitle(title)
    ensures p == Initial ==> s.sent.Some?
  {
    var n := CountFromTitle(title);
    if n != p.last then PushStep(Pusher(n), Some(n)) else PushStep(p, None)
  }

  /** The counts read from a sequence of titles. */
  function Counts(titles: seq<string>): (cs: seq<nat>)
    ensures |cs| == |titles|
    ensures forall k :: 0 <= k < |titles| ==> cs[k] == CountFromTitle(titles[k])
  {
    seq(|titles|, k requires 0 <= k < |titles| => CountFromTitle(titles[k]))
  }

  /** A sequence with every run of equal adjacent elements collapsed to one. */
  function Destutter<T(==)>(s: seq<T>): seq<T>
    decreases |s|
  {
    if |s| <= 1 then s
    else
      var d := Destutter(s[..|s| - 1]);
      if s[|s| - 1] == s[|s| - 2] then d else d + [s[|s| - 1]]
  }

  /** No two adjacent elements are equal. */
  predicate NoRepeats<T(==)>(s: seq<T>) {
    forall k :: 0 < k < |s| ==> s[k] != s[k - 1]
  }

  /** Collapsing runs keeps the first and the last element and leaves no
      repeats. */
  lemma {:induction false} DestutterProperties<T>(s: seq<T>)
    ensures |Destutter(s)| <= |s|
    ensures |s| > 0 <==> |Destutter(s)| > 0
    ensures |s| > 0 ==> Destutter(s)[0] == s[0]
    ensures |s| > 0 ==> Destutter(s)[|Destutter(s)| - 1] == s[|s| - 1]
    ensures NoRepeats(Destutter(s))
    ensures forall k :: 0 <= k < |Destutter(s)| ==> Destutter(s)[k] in s
    decreases |s|
  {
    if |s| > 1 {
      DestutterProperties(s[..|s| - 1]);
    }
  }

  /** Pushing on each title in turn, from the initial state: the commands
      sent are the counts with repeats collapsed, and `last` ends at the
      last count read. */
  method PushAll(titles: seq<string>) returns (sent: seq<nat>, p: Pusher)
    ensures sent == Destutter(Counts(titles))
    ensures NoRepeats(sent)
    ensures |titles| == 0 ==> p == Initial
    ensures |titles| > 0 ==> p.last == CountFromTitle(titles[|titles| - 1])
  {
    var counts := Counts(titles);
    sent := [];
    p := Initial;
    var i := 0;
    while i < |titles|
      invariant 0 <= i <= |titles|
      invariant sent == Destutter(counts[..i])
      invariant i == 0 ==> p == Initial
      invariant i > 0 ==> p.last == counts[i - 1]
    {
      var step := Push(p, titles[i]);
      assert counts[..i + 1][..i] == counts[..i];
      if step.sent.Some? {
        sent := sent + [step.sent.value];
      }
      p := step.next;
      i := i + 1;
    }
    assert counts[..i] == counts;
    DestutterProperties(counts);
  }
}

=== FILE: common.dfy ===
/** Small shared vocabulary: optional values, string-carrying results, and
    the width of the count that crosses the command boundary. */
module Common {

  /** Rust's `Option`. */
  datatype Option<+T> = None | Some(value: T)

  /** Rust's `Result<T, String>`. */
  datatype Result<+T> = Ok(value: T) | Err(error: string)

  /** Rust's `u32`: the type of the badge count in the native command. */
  type uint32 = n: int | 0 <= n < 0x1_0000_0000

  /** Rust's `Ord::min` on integers. */
  function Min(a: int, b: int): (m: int)
    ensures m <= a && m <= b
    ensures m == a || m == b
  {
    if a <= b then a else b
  }

  /** An ASCII decimal digit: `\d` of a JavaScript regular expression
      without the `u` flag, and what `format!("{}")` writes for 0..9. */
  predicate IsDigit(c: char) {
    '0' <= c <= '9'
  }

  /** The value of a decimal digit. */
  function DigitValue(c: char): (d: nat)
    requires IsDigit(c)
    ensures d <= 9
  {
    c as int - '0' as int
  }

  /** The decimal digit of a value in 0..9. */
  function DigitChar(d: int): (c: char)
    requires 0 <= d <= 9
    ensures IsDigit(c) && DigitValue(c) == d
  {
    ('0' as int + d) as char
  }
}

=== FILE: icon_loader.dfy ===
/** The icon resource loader: given an ordered list of relative candidate
    paths, load the first icon that exists and decodes, first relative to the
    working directory and then relative to the executable's directory. */
module IconLoader {
  import opened Common

  /** What one call of the loader can observe of the machine.  The real
      existence test and LoadImageW are foreign calls; here they are two sets
      of absolute paths. */
  datatype FileSystem = FileSystem(
    cwd: string,            // the process working directory
    exeDir: Option<string>, // parent of current_exe(); None when either step fails
    existing: set<string>,  // paths for which `exists()` is true
    loadable: set<string>)  // paths LoadImageW decodes as an icon

  /** A loaded icon handle, identified by the file it was loaded from. */
  datatype Icon = Icon(file: string)

  /** Resolve a relative path against a directory. */
  function Join(dir: string, rel: string): string {
    dir + "/" + rel
  }

  /** The path exists and LoadImageW succeeds on it. */
  predicate Hit(fs: FileSystem, path: string) {
    path in fs.existing && path in fs.loadable
  }

  /** Candidate `k` is the first one that hits when resolved against `base`. */
  predicate FirstHitAt(fs: FileSystem, base: string, rels: seq<string>, k: int) {
    && 0 <= k < |rels|
    && Hit(fs, Join(base, rels[k]))
    && forall j :: 0 <= j < k ==> !Hit(fs, Join(base, rels[j]))
  }

  /** No candidate hits when resolved against `base`. */
  predicate NoHit(fs: FileSystem, base: string, rels: seq<string>) {
    forall k :: 0 <= k < |rels| ==> !Hit(fs, Join(base, rels[k]))
  }

  /** One ordered pass over the candidates against one base directory. */
  function ScanPass(fs: FileSystem, base: string, rels: seq<string>): (r: Option<Icon>)
    ensures r.None? <==> NoHit(fs, base, rels)
    ensures forall k :: FirstHitAt(fs, base, rels, k) ==> r == Some(Icon(Join(base, rels[k])))
    decreases |rels|
  {
    if rels == [] then None
    else if Hit(fs, Join(base, rels[0])) then Some(Icon(Join(base, rels[0])))
    else
      var rest := ScanPass(fs, base, rels[1..]);
      assert forall k :: FirstHitAt(fs, base, rels, k) ==> FirstHitAt(fs, base, rels[1..], k - 1);
      rest
  }

  /** `load_icon_any`: the working-directory pass, then the same ordered
      pass against the executable's directory if that directory is known. */
  function LoadIconAny(fs: FileSystem, rels: seq<string>): (r: Option<Icon>)
    ensures r.None? <==> NoHit(fs, fs.cwd, rels) && (fs.exeDir.Some? ==> NoHit(fs, fs.exeDir.value, rels))
    ensures r.Some? ==> Hit(fs, r.value.file)
    ensures forall k :: FirstHitAt(fs, fs.cwd, rels, k) ==> r == Some(Icon(Join(fs.cwd, rels[k])))
    ensures NoHit(fs, fs.cwd, rels) && fs.exeDir.Some? ==>
              forall k :: FirstHitAt(fs, fs.exeDir.value, rels, k) ==> r == Some(Icon(Join(fs.exeDir.value, rels[k])))
  {
    var first := ScanPass(fs, fs.cwd, rels);
    if first.Some? then
      HitOfScan(fs, fs.cwd, rels);
      first
    else if fs.exeDir.None? then None
    else
      HitOfScan(fs, fs.exeDir.value, rels);
      ScanPass(fs, fs.exeDir.value, rels)
  }

  /** A pass that finds an icon found one that hits. */
  lemma HitOfScan(fs: FileSystem, base: string, rels: seq<string>)
    ensures ScanPass(fs, base, rels).Some? ==> Hit(fs, ScanPass(fs, base, rels).value.file)
  {
    if ScanPass(fs, base, rels).Some? {
      var k :| 0 <= k < |rels| && Hit(fs, Join(base, rels[k]));
      FirstHitExists(fs, base, rels, k);
    }
  }

  /** Whenever some candidate hits, there is a first one that hits. */
  lemma {:induction false} FirstHitExists(fs: FileSystem, base: string, rels: seq<string>, k: int)
    requires 0 <= k < |rels| && Hit(fs, Join(base, rels[k]))
    ensures exists f :: FirstHitAt(fs, base, rels, f)
  {
    if !FirstHitAt(fs, base, rels, k) {
      var j :| 0 <= j < k && Hit(fs, Join(base, rels[j]));
      FirstHitExists(fs, base, rels, j);
    }
  }

  /** The loader as the source writes it: two loops that return from inside. */
  method LoadIconAnyLoop(fs: FileSystem, rels: seq<string>) returns (r: Option<Icon>)
    ensures r == LoadIconAny(fs, rels)
  {
    var i := 0;
    while i < |rels|
      invariant 0 <= i <= |rels|
      invariant forall j :: 0 <= j < i ==> !Hit(fs, Join(fs.cwd, rels[j]))
    {
      var p := Join(fs.cwd, rels[i]);
      if p in fs.existing && p in fs.loadable {
        assert FirstHitAt(fs, fs.cwd, rels, i);
        return Some(Icon(p));
      }
      i := i + 1;
    }
    if fs.exeDir.Some? {
      var dir := fs.exeDir.value;
      var k := 0;
      while k < |rels|
        invariant 0 <= k <= |rels|
        invariant forall j :: 0 <= j < k ==> !Hit(fs, Join(dir, rels[j]))
      {
        var p := Join(dir, rels[k]);
        if p in fs.existing && p in fs.loadable {
          assert FirstHitAt(fs, dir, rels, k);
          return Some(Icon(p));
        }
        k := k + 1;
      }
    }
    r := None;
  }
}

=== FILE: taskbar.dfy ===
/** `set_taskbar_badge`: the COM calls it issues, as an abstract event trace,
    and the taskbar overlay it leaves behind, as a small state machine. */
module Taskbar {
  import opened Common
  import opened IconLoader
  import opened BadgeGlyph

  /** An opaque native window handle, borrowed from the windowing layer. */
  type Hwnd = nat

  /** The class id of the shell's TaskbarList object. */
  const CLSID_TASKBAR_LIST: int := 0x56FDF344_FD6D_11d0_958A_006097C9A090

  /** The only progress flag the badge code uses (TBPF_NOPROGRESS). */
  datatype ProgressFlag = NoProgress

  /** One OS call, in issue order. `LoadIcon` stands for one call of the
      icon loader with its candidate list. */
  datatype Event =
    | CoInitialize
    | CoCreateInstance(clsid: int)
    | SetProgressState(hwnd: Hwnd, flag: ProgressFlag)
    | LoadIcon(candidates: seq<string>)
    | SetOverlayIcon(hwnd: Hwnd, icon: Option<Icon>)
    | CoUninitialize

  /** How the fallible OS calls turn out in one invocation. */
  datatype Shell = Shell(
    initOk: bool,     // CoInitialize returns a success code
    createOk: bool,   // CoCreateInstance yields an ITaskbarList3
    overlayOk: bool)  // SetOverlayIcon takes effect

  /** The overlay shown on the window's taskbar button. */
  datatype Overlay = NoBadge | Numeric(digit: int) | Overflow

  predicate ValidOverlay(o: Overlay) {
    o.Numeric? ==> 1 <= o.digit <= 9
  }

  /** The state the badge state machine moves to on a count: any state goes
      to NoBadge on 0, to Numeric(n) on 1 <= n <= 9, and to Overflow above 9. */
  function Target(count: uint32): (o: Overlay)
    ensures ValidOverlay(o)
  {
    if count == 0 then NoBadge else if count <= 9 then Numeric(count) else Overflow
  }

  /** The overlay a glyph file shows once applied. */
  function Shown(g: Glyph): Overlay {
    match g
    case Numeral(d) => Numeric(d)
    case NinePlus => Overflow
  }

  /** What one call leaves behind: the calls it made and the overlay. */
  datatype Effect = Effect(trace: seq<Event>, overlay: Overlay)

  /** The calls that only the TaskbarList interface can make. */
  predicate InterfaceCall(e: Event) {
    e.SetProgressState? || e.SetOverlayIcon?
  }

  /** The part of the source that runs once the interface is obtained and
      the progress state is cleared: clear the overlay for 0, otherwise load
      the glyph and apply it if the loader finds it. */
  function UpdateOverlay(shell: Shell, fs: FileSystem, hwnd: Hwnd, prior: Overlay, count: uint32): (e: Effect)
    ensures 1 <= |e.trace| <= 2
    ensures forall i :: 0 <= i < |e.trace| ==> e.trace[i].LoadIcon? || e.trace[i].SetOverlayIcon?
    ensures forall i :: 0 <= i < |e.trace| && e.trace[i].SetOverlayIcon? ==> i == |e.trace| - 1
    ensures count == 0 <==> e.trace == [SetOverlayIcon(hwnd, None)]
    ensures forall i :: 0 <= i < |e.trace| && e.trace[i].SetOverlayIcon? && e.trace[i].icon.Some? ==>
              Hit(fs, e.trace[i].icon.value.file)
    ensures forall i :: 0 <= i < |e.trace| && e.trace[i].SetOverlayIcon? ==> e.trace[i].hwnd == hwnd
    ensures e.overlay == prior || e.overlay == Target(count)
    // a non-zero count hands the loader exactly its glyph's candidate list,
    // and applies the icon the loader returns, if any
    ensures count != 0 ==> e.trace[0] == LoadIcon(Candidates(GlyphFor(count).value))
    ensures count != 0 ==> (|e.trace| == 2 <==> LoadIconAny(fs, Candidates(GlyphFor(count).value)).Some?)
    ensures count != 0 && |e.trace| == 2 ==>
              e.trace[1] == SetOverlayIcon(hwnd, LoadIconAny(fs, Candidates(GlyphFor(count).value)))
  {
    match GlyphFor(count)
    case None => Effect([SetOverlayIcon(hwnd, None)], if shell.overlayOk then NoBadge else prior)
    case Some(g) =>
      var cands := Candidates(g);
      match LoadIconAny(fs, cands)
      case None => Effect([LoadIcon(cands)], prior)
      case Some(icon) =>
        Effect([LoadIcon(cands), SetOverlayIcon(hwnd, Some(icon))], if shell.overlayOk then Shown(g) else prior)
  }

  /** The calls around the overlay update once COM and the interface are
      in hand: create, clear the progress state, the update, uninitialise. */
  function Bracketed(hwnd: Hwnd, body: seq<Event>): (t: seq<Event>)
    requires forall i :: 0 <= i < |body| ==> body[i].LoadIcon? || body[i].SetOverlayIcon?
    ensures |t| == |body| + 4
    ensures t[0] == CoInitialize && t[1] == CoCreateInstance(CLSID_TASKBAR_LIST)
    ensures t[2] == SetProgressState(hwnd, NoProgress) && t[|t| - 1] == CoUninitialize
    ensures forall i :: 3 <= i < |t| - 1 ==> t[i] == body[i - 3]
    ensures forall i :: 0 < i < |t| ==> t[i] != CoInitialize
    ensures forall i :: 0 <= i < |t| - 1 ==> t[i] != CoUninitialize
    ensures forall i :: 0 <= i < |t| && t[i].SetOverlayIcon? ==> 3 <= i < |t| - 1
  {
    [CoInitialize, CoCreateInstance(CLSID_TASKBAR_LIST), SetProgressState(hwnd, NoProgress)] + body + [CoUninitialize]
  }

  /** `set_taskbar_badge(hwnd, count)`. */
  function SetTaskbarBadge(shell: Shell, fs: FileSystem, hwnd: Hwnd, prior: Overlay, count: uint32): (e: Effect)
    // CoInitialize is always the first call, and is made once
    ensures |e.trace| >= 1 && e.trace[0] == CoInitialize
    ensures forall i :: 0 < i < |e.trace| ==> e.trace[i] != CoInitialize
    // CoUninitialize runs if and only if CoInitialize succeeded, once, as the last call
    ensures CoUninitialize in e.trace <==> shell.initOk
    ensures shell.initOk ==> e.trace[|e.trace| - 1] == CoUninitialize
    ensures forall i :: 0 <= i < |e.trace| - 1 ==> e.trace[i] != CoUninitialize
    // without the interface nothing is asked of the taskbar
    ensures !(shell.initOk && shell.createOk) ==> forall i :: 0 <= i < |e.trace| ==> !InterfaceCall(e.trace[i])
    // with it, the progress state is cleared on this window before any overlay call
    ensures shell.initOk && shell.createOk ==> |e.trace| >= 5 && e.trace[2] == SetProgressState(hwnd, NoProgress)
    ensures forall i :: 0 <= i < |e.trace| && e.trace[i].SetOverlayIcon? ==>
              2 < i && e.trace[2] == SetProgressState(hwnd, NoProgress) && e.trace[i].hwnd == hwnd
    // a count of 0 never loads an icon
    ensures count == 0 ==> forall i :: 0 <= i < |e.trace| ==> !e.trace[i].LoadIcon?
    // only a loaded icon is ever handed to the shell
    ensures forall i :: 0 <= i < |e.trace| && e.trace[i].SetOverlayIcon? && e.trace[i].icon.Some? ==>
              Hit(fs, e.trace[i].icon.value.file)
    // the overlay either stays or moves to the state machine's target
    ensures e.overlay == prior || e.overlay == Target(count)
    // a failed CoInitialize makes no further call; a failed CoCreateInstance
    // makes none but the teardown
    ensures !shell.initOk ==> e.trace == [CoInitialize]
    ensures shell.initOk && !shell.createOk ==>
              e.trace == [CoInitialize, CoCreateInstance(CLSID_TASKBAR_LIST), CoUninitialize]
  {
    if !shell.initOk then
      Effect([CoInitialize], prior)
    else if !shell.createOk then
      Effect([CoInitialize, CoCreateInstance(CLSID_TASKBAR_LIST), CoUninitialize], prior)
    else
      var body := UpdateOverlay(shell, fs, hwnd, prior, count);
      var trace := Bracketed(hwnd, body.trace);
      Effect(trace, body.overlay)
  }

  /** The glyph a non-zero count selects shows the state machine's target. */
  lemma ShownIsTarget(count: uint32)
    requires count != 0
    ensures Shown(GlyphFor(count).value) == Target(count)
  {
  }

  /** The loader finds the glyph file for a count (trivially so for 0,
      which loads nothing). */
  predicate GlyphFound(fs: FileSystem, count: uint32) {
    count == 0 || LoadIconAny(fs, Candidates(GlyphFor(count).value)).Some?
  }

  /** The overlay moves to the target exactly when every OS call on the way
      succeeds and the glyph is found; otherwise it keeps its prior state. */
  lemma OverlayChangesExactlyWhen(shell: Shell, fs: FileSystem, hwnd: Hwnd, prior: Overlay, count: uint32)
    ensures SetTaskbarBadge(shell, fs, hwnd, prior, count).overlay ==
              if shell.initOk && shell.createOk && shell.overlayOk && GlyphFound(fs, count)
              then Target(count) else prior
  {
    if count != 0 {
      ShownIsTarget(count);
    }
  }

  /** Applying the same count twice leaves the overlay as applying it once. */
  lemma Idempotent(shell: Shell, fs: FileSystem, hwnd: Hwnd, prior: Overlay, count: uint32)
    ensures var once := SetTaskbarBadge(shell, fs, hwnd, prior, count).overlay;
            SetTaskbarBadge(shell, fs, hwnd, once, count).overlay == once
  {
    var once := SetTaskbarBadge(shell, fs, hwnd, prior, count).overlay;
    OverlayChangesExactlyWhen(shell, fs, hwnd, prior, count);
    OverlayChangesExactlyWhen(shell, fs, hwnd, once, count);
  }

  /** With the interface in hand, a count of 0 issues exactly one null-icon
      SetOverlayIcon, bracketed by COM setup and teardown; it clears any
      prior badge when the overlay call takes effect. */
  lemma ZeroClears(shell: Shell, fs: FileSystem, hwnd: Hwnd, prior: Overlay)
    requires shell.initOk && shell.createOk
    ensures var e := SetTaskbarBadge(shell, fs, hwnd, prior, 0);
            && e.overlay == (if shell.overlayOk then NoBadge else prior)
            && e.trace == [CoInitialize, CoCreateInstance(CLSID_TASKBAR_LIST), SetProgressState(hwnd, NoProgress),
                           SetOverlayIcon(hwnd, None), CoUninitialize]
  {
  }

  /** A glyph missing from every location leaves the overlay alone and
      issues no SetOverlayIcon. */
  lemma MissingGlyphKeepsOverlay(shell: Shell, fs: FileSystem, hwnd: Hwnd, prior: Overlay, count: uint32)
    requires count != 0
    requires var cands := Candidates(GlyphFor(count).value);
      NoHit(fs, fs.cwd, cands) && (fs.exeDir.Some? ==> NoHit(fs, fs.exeDir.value, cands))
    ensures var e := SetTaskbarBadge(shell, fs, hwnd, prior, count);
            && e.overlay == prior
            && forall i :: 0 <= i < |e.trace| ==> !e.trace[i].SetOverlayIcon?
  {
  }

  /** With the interface in hand, a non-zero count asks the loader for
      exactly its two candidate files, and an icon the loader returns is
      the one handed to SetOverlayIcon; a null icon is never sent for it. */
  lemma FoundGlyphIsApplied(shell: Shell, fs: FileSystem, hwnd: Hwnd, prior: Overlay, count: uint32)
    requires shell.initOk && shell.createOk && count != 0
    ensures var e := SetTaskbarBadge(shell, fs, hwnd, prior, count);
            var cands := Candidates(GlyphFor(count).value);
            && e.trace[3] == LoadIcon(cands)
            && SetOverlayIcon(hwnd, None) !in e.trace
            && (LoadIconAny(fs, cands).Some? ==> e.trace[4] == SetOverlayIcon(hwnd, LoadIconAny(fs, cands)))
  {
    var e := SetTaskbarBadge(shell, fs, hwnd, prior, count);
    var body := UpdateOverlay(shell, fs, hwnd, prior, count);
    assert e.trace[3] == body.trace[0];
    if LoadIconAny(fs, Candidates(GlyphFor(count).value)).Some? {
      assert e.trace[4] == body.trace[1];
    }
  }

  /** All counts above 9 behave identically, calls and overlay alike. */
  lemma OverflowCountsAgree(shell: Shell, fs: FileSystem, hwnd: Hwnd, prior: Overlay, a: uint32, b: uint32)
    requires a > 9 && b > 9
    ensures SetTaskbarBadge(shell, fs, hwnd, prior, a) == SetTaskbarBadge(shell, fs, hwnd, prior, b)
  {
  }

  /** A glyph present only as the packaged-resource copy in the working
      directory is still applied, from that copy. */
  lemma PackagedFallback(fs: FileSystem, hwnd: Hwnd, prior: Overlay, count: uint32)
    requires count != 0
    requires var g := GlyphFor(count).value;
      && !Hit(fs, Join(fs.cwd, GlyphPath(g)))
      && Hit(fs, Join(fs.cwd, ResourcesPrefix + GlyphPath(g)))
    ensures var g := GlyphFor(count).value;
            var e := SetTaskbarBadge(Shell(true, true, true), fs, hwnd, prior, count);
            && e.overlay == Target(count)
            && SetOverlayIcon(hwnd, Some(Icon(Join(fs.cwd, ResourcesPrefix + GlyphPath(g))))) in e.trace
  {
    var g := GlyphFor(count).value;
    assert FirstHitAt(fs, fs.cwd, Candidates(g), 1);
    ShownIsTarget(count);
    var e := SetTaskbarBadge(Shell(true, true, true), fs, hwnd, prior, count);
    assert e.trace[4] == SetOverlayIcon(hwnd, Some(Icon(Join(fs.cwd, ResourcesPrefix + GlyphPath(g)))));
  }

  /** A glyph found under neither working-directory path is applied from
      the first candidate, primary or packaged copy, that is found under the
      executable's directory. */
  lemma ExeDirFallback(fs: FileSystem, hwnd: Hwnd, prior: Overlay, count: uint32, k: nat)
    requires count != 0 && fs.exeDir.Some?
    requires var cands := Candidates(GlyphFor(count).value);
      NoHit(fs, fs.cwd, cands) && FirstHitAt(fs, fs.exeDir.value, cands, k)
    ensures var cands := Candidates(GlyphFor(count).value);
            var e := SetTaskbarBadge(Shell(true, true, true), fs, hwnd, prior, count);
            && e.overlay == Target(count)
            && |e.trace| == 6
            && e.trace[4] == SetOverlayIcon(hwnd, Some(Icon(Join(fs.exeDir.value, cands[k]))))
  {
    ShownIsTarget(count);
  }
}

=== FILE: title_count.dfy ===
/** `countFromTitle` of the injected page script: the decimal value of the
    digits in the leftmost `(digits)` of the page title, or 0. */
module TitleCount {
  import opened Common

  predicate AllDigits(s: string) {
    forall k :: 0 <= k < |s| ==> IsDigit(s[k])
  }

  /** `parseInt(s, 10)` on a non-empty run of decimal digits. */
  function DecimalValue(s: string): nat
    requires AllDigits(s)
    decreases |s|
  {
    if s == [] then 0 else DecimalValue(s[..|s| - 1]) * 10 + DigitValue(s[|s| - 1])
  }

  /** The canonical decimal numeral of a number (no leading zeros). */
  function ToDecimal(n: nat): (s: string)
    ensures |s| >= 1 && AllDigits(s)
    decreases n
  {
    if n < 10 then [DigitChar(n)] else ToDecimal(n / 10) + [DigitChar(n % 10)]
  }

  /** Reading a numeral back gives the number it was written from. */
  lemma {:induction false} DecimalRoundTrip(n: nat)
    ensures DecimalValue(ToDecimal(n)) == n
  {
    if n >= 10 {
      var s := ToDecimal(n);
      assert s[..|s| - 1] == ToDecimal(n / 10);
      DecimalRoundTrip(n / 10);
    }
  }

  /** The regular expression `\((\d+)\)` matches `t[i..j+1]`: an opening
      parenthesis at `i`, one or more digits, the closing one at `j`. */
  ghost predicate IsMatch(t: string, i: int, j: int) {
    && 0 <= i && i + 1 < j < |t|
    && t[i] == '(' && t[j] == ')'
    && AllDigits(t[i + 1..j])
  }

  /** No match starts before position `p`. */
  ghost predicate NoMatchBefore(t: string, p: int) {
    forall i, j :: i < p && IsMatch(t, i, j) ==> false
  }

  /** The length of the maximal digit run starting at `i`. */
  function DigitRun(t: string, i: nat): (n: nat)
    requires i <= |t|
    ensures i + n <= |t|
    ensures forall k :: i <= k < i + n ==> IsDigit(t[k])
    ensures i + n < |t| ==> !IsDigit(t[i + n])
    decreases |t| - i
  {
    if i < |t| && IsDigit(t[i]) then 1 + DigitRun(t, i + 1) else 0
  }

  /** Where the match starting at `i` closes, if one starts there. The digit
      run is greedy; backtracking to a shorter run cannot help, because a
      shorter run is followed by a digit, not by `)`. */
  function MatchEnd(t: string, i: nat): (r: int)
    requires i < |t|
  {
    if t[i] != '(' then -1
    else
      var n := DigitRun(t, i + 1);
      if n > 0 && i + 1 + n < |t| && t[i + 1 + n] == ')' then i + 1 + n else -1
  }

  /** A slice is all digits exactly when every position it covers is one. */
  lemma SliceDigits(t: string, a: int, b: int)
    requires 0 <= a <= b <= |t|
    ensures AllDigits(t[a..b]) <==> forall k :: a <= k < b ==> IsDigit(t[k])
  {
    if AllDigits(t[a..b]) {
      forall k | a <= k < b ensures IsDigit(t[k]) {
        assert t[a..b][k - a] == t[k];
      }
    }
  }

  /** MatchEnd finds exactly the matches that start at `i`. */
  lemma MatchEndCorrect(t: string, i: nat, j: int)
    requires i < |t|
    ensures IsMatch(t, i, j) <==> MatchEnd(t, i) == j >= 0
  {
    var n := DigitRun(t, i + 1);
    if IsMatch(t, i, j) {
      SliceDigits(t, i + 1, j);
      assert !IsDigit(t[j]);
      assert i + 1 + n == j;
    }
    if MatchEnd(t, i) == j >= 0 {
      SliceDigits(t, i + 1, j);
    }
  }

  /** The leftmost-match scan of `String.prototype.match` from position `i`. */
  function ScanFrom(t: string, i: nat): nat
    requires i <= |t|
    decreases |t| - i
  {
    if i == |t| then 0
    else
      var j := MatchEnd(t, i);
      if j >= 0 then DecimalValue(t[i + 1..j]) else ScanFrom(t, i + 1)
  }

  /** `countFromTitle()` on the page title (`document.title || ""`). */
  function CountFromTitle(title: string): nat {
    ScanFrom(title, 0)
  }

  /** The scan from `p` returns the value of the leftmost match at or after
      `p`, and 0 when there is none. */
  lemma {:induction false} ScanFromSpec(t: string, p: nat)
    requires p <= |t|
    requires NoMatchBefore(t, p)
    ensures (forall i, j :: IsMatch(t, i, j) ==> false) ==> ScanFrom(t, p) == 0
    ensures forall i, j :: IsMatch(t, i, j) && NoMatchBefore(t, i) ==> ScanFrom(t, p) == DecimalValue(t[i + 1..j])
    decreases |t| - p
  {
    if p < |t| {
      var j := MatchEnd(t, p);
      if j >= 0 {
        MatchEndCorrect(t, p, j);
        forall i, j' | IsMatch(t, i, j') && NoMatchBefore(t, i)
          ensures ScanFrom(t, p) == DecimalValue(t[i + 1..j'])
        {
          MatchEndCorrect(t, p, j');
        }
      } else {
        assert NoMatchBefore(t, p + 1) by {
          forall i, j' | i < p + 1 && IsMatch(t, i, j') ensures false {
            MatchEndCorrect(t, p, j');
          }
        }
        ScanFromSpec(t, p + 1);
      }
    }
  }

  /** `countFromTitle` returns 0 when the title has no `(digits)`, and the
      value of the leftmost one otherwise. */
  lemma CountFromTitleSpec(t: string)
    ensures (forall i, j :: IsMatch(t, i, j) ==> false) ==> CountFromTitle(t) == 0
    ensures forall i, j :: IsMatch(t, i, j) && NoMatchBefore(t, i) ==> CountFromTitle(t) == DecimalValue(t[i + 1..j])
  {
    ScanFromSpec(t, 0);
  }

  /** A title of the shape `prefix(n)suffix`, with no `(` in the prefix,
      yields `n`; the count the page puts in its title comes back out. */
  lemma TitleRoundTrip(prefix: string, n: nat, suffix: string)
    requires forall k :: 0 <= k < |prefix| ==> prefix[k] != '('
    ensures CountFromTitle(prefix + "(" + ToDecimal(n) + ")" + suffix) == n
  {
    var digits := ToDecimal(n);
    var t := prefix + "(" + digits + ")" + suffix;
    var i := |prefix|;
    var j := |prefix| + 1 + |digits|;
    assert t[i + 1..j] == digits;
    assert IsMatch(t, i, j);
    assert NoMatchBefore(t, i);
    CountFromTitleSpec(t);
    DecimalRoundTrip(n);
  }
}
